=== FILE: README.md ===
# Course platform and bookmark forms, modelled in Dafny

This project models the core of two Django applications from the
`Django-projects` repository and proves properties of that model.

The first application is the e-learning platform (`educa-platform`). Its core is:

- the ordered tree Subject → Course → Module → Content, and the four item
  kinds a Content points at (text, video, image, file);
- the delete cascades, the default orderings and the unique slugs;
- the instructor views:
  - the content-kind gate and editor;
  - content create, update and delete;
  - the AJAX module and content reorder endpoints;
- the public course catalogue, which is read through a key/value cache;
- the REST serialisers: a subject with its course count and its three most
  popular courses, and a course with its modules and rendered contents.

The second application is the bookmarking site (`bookmarks4`). Its core is:

- the image form, which checks a URL's file extension and builds the stored
  file name;
- the account forms, which check e-mail uniqueness and the repeated password.

The tables are maps from primary key to record, held in a `Db` value
(`course_models.dfy`). Views that write to the database are methods of the
class `CourseViews.Store`, whose field `db` they reassign. Each such method
is proved against a pure function of the old state. The catalogue cache is
the class `ListCache.CourseListCache`, whose field is its map of entries.

Files:

- `wrappers.dfy`: Option and Result.
- `decimal.dfy`: `str(int)` and its inverse.
- `ordering.dfy`: lexicographic keys, and a listing function that sorts ids
  by key.
- `course_models.dfy`: records, orderings, cascades, labels and templates.
- `course_views.dfy`: the views that write to the tables.
- `list_cache.dfy`: the catalogue view and its cache.
- `serializers.dfy`: the API shapes.
- `image_forms.dfy`: the image form.
- `account_forms.dfy`: the account forms.

## Model

| member | source | states |
|---|---|---|
| CourseModels.ModulesInOrder | educa-platform/courses/models.py:51-65 | A course's modules are listed exactly once each, every module of that course and no other, in ascending `order`. |
| CourseModels.ContentsInOrder | educa-platform/courses/models.py:69-90 | A module's contents are listed exactly once each, every content of that module and no other, in ascending `order`. |
| CourseModels.SubjectsInOrder | educa-platform/courses/models.py:10-15 | Every subject is listed once, with titles in non-decreasing order. |
| CourseModels.CoursesInOrder | educa-platform/courses/models.py:45-46 | The given courses are each listed once, newest `created` first. |
| CourseModels.DeleteModule | educa-platform/courses/models.py:69-74 | Deleting a module removes exactly its contents. Every other row stays unchanged, the items stay, and the schema invariant still holds. |
| CourseModels.DeleteCourse | educa-platform/courses/models.py:51-54 | Deleting a course removes exactly its modules and their contents. Every other row stays unchanged, and the invariant still holds. |
| CourseModels.DeleteSubject | educa-platform/courses/models.py:27-31 | Deleting a subject removes exactly its courses, their modules and their contents. Every other row stays unchanged, and the invariant still holds. |
| CourseModels.ModuleLabelInjective | educa-platform/courses/models.py:61-62 | Two modules with the same `"{order}. {title}"` label have the same order and the same title. |
| CourseModels.Render | educa-platform/courses/models.py:120-124 | Rendering uses the template `course/content/{kind}.html` for the item's kind and passes the item itself to it. |
| CourseModels.TemplateNameInjective | educa-platform/courses/models.py:120-124 | The template path `course/content/{kind}.html` depends only on the kind, and different kinds get different templates. |
| Decimal.IntRoundTrip | educa-platform/courses/models.py:62 | Reading back the decimal rendering of an integer gives that integer. |
| Decimal.IntToStringInjective | educa-platform/courses/views.py:203 | Distinct integers render as distinct strings. |
| Ordering.SortIds | educa-platform/courses/models.py:64-65 | A listing holds each requested id once, with keys in non-decreasing order. |
| CourseViews.KindFromToken | educa-platform/courses/views.py:33-40 | A kind is found if and only if the token is exactly `text`, `video`, `image` or `file`. The kind found has that token as its name. |
| CourseViews.KindTokenRoundTrip | educa-platform/courses/views.py:38-40 | Every kind's own name passes the gate and gives back that kind. |
| CourseViews.EditorFields | educa-platform/courses/views.py:42-50 | The editor offers `title` and the kind's own field. It never offers `owner`, `order`, `created` or `updated`. |
| CourseViews.Dispatch | educa-platform/courses/views.py:52-68 | The request proceeds if and only if all of these hold: the module belongs to a course the user owns; the token names a kind; and, when a non-zero id is given, that item exists and the user owns it. Otherwise the answer is not-found. |
| CourseViews.EditPage | educa-platform/courses/views.py:70-76 | The intended GET shows the editor exactly when dispatch succeeds. The editor offers exactly the kind's editable fields, never a system field. It is bound to the requested item, which the user owns, exactly when an id was given. |
| CourseViews.ContentRequestAsWritten | educa-platform/courses/views.py:52-98 | As written, a GET, HEAD or POST request that fails a dispatch check answers not-found. Every other GET, HEAD or POST request fails with a server error, because `get` or `post` is called without `module_id` and `model_name`. |
| CourseViews.HandlersUnreachableAsWritten | educa-platform/courses/views.py:68 | Whenever dispatch's checks pass, every GET, HEAD or POST request as written fails, while the intended GET shows the editor. |
| CourseViews.NewTextAsWrittenFails | educa-platform/courses/views.py:68 | A concrete request, a new text item in a module of the user's course, fails as written. The intended GET shows the text editor. |
| CourseViews.ReorderModulesEffect | educa-platform/courses/views.py:275-278 | After a reorder, each module the user owns through its course has the last order given for it. Every other module, every other field and every other table is unchanged. Ids that match nothing are skipped, and the invariant still holds. |
| CourseViews.ReorderContentsEffect | educa-platform/courses/views.py:283-286 | The same rule for contents, with ownership reached through module and then course. |
| CourseViews.Store.ModuleOrder | educa-platform/courses/views.py:275-278 | The loop leaves the tables equal to applying the request's pairs in turn. The reply is always `OK`. |
| CourseViews.Store.ContentOrder | educa-platform/courses/views.py:283-286 | The same, for the content reorder. |
| CourseViews.Store.ContentPost | educa-platform/courses/views.py:78-98 | The intended POST. Failed dispatch answers not-found and an invalid form shows the form again; neither changes anything. A valid form writes the item with the user as owner. A new Content, numbered by OrderField within its module, is created only when no id was given. The reply redirects to the module's content list, and nothing else changes. |
| CourseViews.Store.ContentDelete | educa-platform/courses/views.py:247-252 | A content the user does not own gives not-found and no change. An owned content is removed together with its item and nothing else. If the item is already missing, the view fails before deleting anything. |
| ListCache.KeysDistinct | educa-platform/courses/views.py:192-212 | `all_subjects`, `all_courses` and every `subject_{id}_courses` are pairwise distinct, and distinct subject ids give distinct keys. |
| ListCache.SubjectsWithCounts | educa-platform/courses/views.py:194-196 | Lists every subject once, by title, each with the number of its courses. |
| ListCache.CoursesWithCounts | educa-platform/courses/views.py:198-206 | Lists each requested course once, newest first, each with the number of its modules. |
| ListCache.SubjectBySlug | educa-platform/courses/views.py:202 | A subject is found if and only if one has that slug, and the one found has it. |
| ListCache.GetOrCompute | educa-platform/courses/views.py:192-197 | A non-empty cached value is returned and leaves the cache untouched. Otherwise the computed value is returned and stored under the key, and no other key changes. |
| ListCache.StoredValueSticks | educa-platform/courses/views.py:192-197 | Once a non-empty value is stored, a later read returns it whatever is computed then. |
| ListCache.EmptyValueRecomputed | educa-platform/courses/views.py:193 | An empty stored list counts as a miss: the next read recomputes it and stores it again. |
| ListCache.CourseList | educa-platform/courses/views.py:191-219 | The answer is not-found if and only if a non-empty slug names no subject. `all_subjects` is always filled. The page's subject is the one found by the slug. The course list is read and filled under the subject's key, or under `all_courses`. A not-found answer touches no course list, a non-empty cached `all_subjects` is never overwritten, and no other key changes. Each list shown is the non-empty cached value, or else the freshly computed one: all subjects with their course counts, or the listed courses with their module counts. Whichever is shown is what the cache holds afterwards. |
| ListCache.CatalogueIgnoresLaterWrites | educa-platform/courses/views.py:191-212 | Once both catalogue lists are cached and non-empty, a later request returns the same page and leaves the cache as it was, even after the tables change. |
| ListCache.CourseListCache.Get | educa-platform/courses/views.py:191-219 | The method's response and new cache are those of `CourseList`, and no key is ever removed. |
| CourseSerializers.RelatedCourses | educa-platform/courses/models.py:27-31 | On a subject, only the declared reverse name `course` resolves, and it gives exactly that subject's courses. |
| CourseSerializers.SubjectAsWrittenFails | educa-platform/courses/api/serializers.py:10-16 | As written, `total_courses` and `popular_courses` both fail with an attribute error on `courses`, for every subject. |
| CourseSerializers.TotalCourses | educa-platform/courses/api/serializers.py:10-11 | `total_courses` is the number of the subject's courses. |
| CourseSerializers.PopularIds | educa-platform/courses/api/serializers.py:13-16 | Picks min(3, course count) distinct courses of the subject, in non-increasing order of student count. |
| CourseSerializers.PopularIdsAreTop | educa-platform/courses/api/serializers.py:14-16 | No course of the subject that was left out has more students than a chosen one. |
| CourseSerializers.PopularEntries | educa-platform/courses/api/serializers.py:17-20 | Each entry holds exactly the course's title and its student count. |
| CourseSerializers.PopularCourses | educa-platform/courses/api/serializers.py:13-20 | `popular_courses` has at most three entries, min(3, course count) of them, with `total_students` non-increasing. |
| CourseSerializers.PopularAreTop | educa-platform/courses/api/serializers.py:13-20 | Every entry is a course of the subject, with its own title and student count. No left-out course of the subject has more students than any entry. |
| CourseSerializers.SerializeSubject | educa-platform/courses/api/serializers.py:6-24 | The output has `id`, `title`, `total_courses` equal to the course count, and `popular_courses` equal to the top-three selection, min(3, total) entries. |
| CourseSerializers.SerializeContent | educa-platform/courses/api/serializers.py:44-54 | The output has the content's `order` and the item rendered through the template of its kind. When the referenced item is missing, the item is absent. |
| CourseSerializers.SerializeContents | educa-platform/courses/api/serializers.py:58 | A list of contents serialises element by element, in the same order. |
| CourseSerializers.SerializeModule | educa-platform/courses/api/serializers.py:57-62 | The output has the module's `order`, `title` and `description`, and one entry per content of the module. Entry i is the serialised i-th content in ascending order. |
| CourseSerializers.SerializeModules | educa-platform/courses/api/serializers.py:66 | A list of modules serialises element by element, in the same order. |
| CourseSerializers.SerializeCourse | educa-platform/courses/api/serializers.py:65-73 | The output has the course's own fields and one entry per module. Entry i is the serialised i-th module in ascending order, and each module's contents are in ascending order. |
| ImageForms.Extension | bookmarks4/images/forms.py:19 | `rsplit('.', 1)[1]` exists if and only if the URL has a dot. It is the dot-free text after the last dot. |
| ImageForms.Lower | bookmarks4/images/forms.py:19 | Lower-casing keeps the length and maps each character separately. |
| ImageForms.CleanUrl | bookmarks4/images/forms.py:16-24 | A URL without a dot fails by indexing. Otherwise the URL is accepted if and only if its lower-cased extension is `jpg`, `jpeg` or `png`, and is then returned unchanged. Any other failure is the validation error. |
| ImageForms.CleanAt | bookmarks4/images/forms.py:19-23 | The verdict depends only on the text after the last dot. |
| ImageForms.CaseInsensitive | bookmarks4/images/forms.py:19 | Two URLs that are equal up to letter case are accepted together or refused together. |
| ImageForms.QuerySpoilsExtension | bookmarks4/images/forms.py:19-23 | A query string after the extension becomes part of the extension, so the URL is refused with the validation error. |
| ImageForms.UpperCaseAccepted | bookmarks4/images/forms.py:19-24 | `X.PNG` is accepted and returned as given. |
| ImageForms.QueryStringRejected | bookmarks4/images/forms.py:19-23 | `a.png?x=1` is refused with the validation error. |
| ImageForms.NoDotIsIndexError | bookmarks4/images/forms.py:19 | A URL without a dot fails by indexing, not with the validation error. |
| ImageForms.ImageFileName | bookmarks4/images/forms.py:29-31 | The stored name is `slugify(title) + "." +` the lower-cased extension. It exists exactly when the URL has a dot. |
| ImageForms.FileNameKeepsExtension | bookmarks4/images/forms.py:28-31 | For an accepted URL, the stored name's extension is the URL's extension lower-cased, and the stored name itself passes `clean_url`. |
| AccountForms.EditCleanEmail | bookmarks4/account/forms.py:14-23 | The profile edit refuses an address held by any user other than the edited one. Otherwise it returns the address unchanged. |
| AccountForms.RegisterCleanEmail | bookmarks4/account/forms.py:60-64 | Registration refuses an address held by any user. Otherwise it returns the address unchanged. |
| AccountForms.CleanPassword2 | bookmarks4/account/forms.py:54-58 | A missing first password raises a key error. Unequal passwords give the validation error. Otherwise `password2` is returned. |
| AccountForms.PasswordsAgree | bookmarks4/account/forms.py:54-58 | When the check passes, both entries equal the returned password. |
| AccountForms.EditUser | bookmarks4/account/forms.py:9-12 | Saving the edit form sets `first_name`, `last_name` and `email` to the submitted values. Every other user field keeps its value. |
| AccountForms.SaveEdit | bookmarks4/account/forms.py:9-23 | An edit is saved if and only if the e-mail check passes. It changes only the edited user. |
| AccountForms.OwnEmailAccepted | bookmarks4/account/forms.py:14-23 | While addresses are unique, a user may keep their current address. |
| AccountForms.OthersEmailRefused | bookmarks4/account/forms.py:14-23 | Another user's address is refused by both forms. |
| AccountForms.UnsavedEditIsRegistration | bookmarks4/account/forms.py:14-23 | With no saved instance, the edit check equals the registration check. |
| AccountForms.RegistrationStricter | bookmarks4/account/forms.py:60-64 | An address that registration accepts is accepted by every edit. |
| AccountForms.RegistrationKeepsEmailsUnique | bookmarks4/account/forms.py:60-64 | Adding a user whose address passed registration keeps addresses unique. |
| AccountForms.EditKeepsEmailsUnique | bookmarks4/account/forms.py:14-23 | A saved edit keeps addresses unique. |

## Left out

- The default `order` of a new Content comes from `OrderField`. Its
  implementation (`courses/fields.py`) is not part of this model.
  `ContentPost` takes it as a function parameter, applied to the module's
  existing contents, and no formula is assumed.
- The reorder body is a JSON object. It is modelled as a sequence of
  integer `(id, order)` pairs in iteration order, where the last pair for an
  id wins. These failing inputs are not modelled:
  - keys that are not integers, which make the filter raise;
  - order values that are floats, numeric strings or booleans, which
    `update` converts with `int()` (2.7 becomes 2, `"4"` becomes 4, `true`
    becomes 1) and stores, replying `OK`;
  - null order values and non-numeric ones such as `"x"` or `[1]`, which make
    `update` fail;
  - a body that is a JSON list or cannot be parsed, which has no `.items()`
    (`views.py:276`, `views.py:284`).
- `Module.order` and `Content.order` are unbounded integers. The column type
  behind `OrderField` (`courses/fields.py`) is not part of this model, so its
  range is not modelled either. If the column only holds non-negative
  integers, a negative order in a reorder batch would make `update` fail
  part-way through the loop. `Store.ModuleOrder` and `Store.ContentOrder`
  answer `OK` for every order value instead.
- Requests never interleave: each view runs alone against the tables.
  Transactions and concurrency are not modelled.
- `Course.created` is an integer timestamp, and the clock that sets it is
  not modelled. The items' `created` and `updated` times (`models.py:109-110`)
  are not modelled either, so a POST is not shown touching `updated`.
- `render_to_string` is abstract: rendering yields the template name and the
  item, not HTML.
- `slugify` is abstract: it is a function parameter of `ImageFileName`.
- In `save`, the image download, the file storage and the `commit` save are
  network and storage I/O, and are not modelled.
- The cache backend's timeouts and eviction are not modelled: a stored key
  stays until overwritten. The cache holds evaluated rows, not a lazy query.
- ImageForms.Lower: lower-cases ASCII letters only, whereas Python's
  `str.lower()` covers all of Unicode. No non-ASCII character lowers to a
  letter of `jpg`, `jpeg` or `png`, so the verdict of `clean_url` is the
  same.
- Text comparison follows code points. Database collation, such as a
  case-insensitive e-mail match or locale title ordering, is not modelled.
- Ordering.SortIds: ties in a sort key are broken by ascending id. The
  database leaves the order of ties unspecified, so this is one admissible
  order.
- Item-form validation is abstract: `ContentPost` receives the cleaned data,
  or None when the form is invalid. `ItemForm` holds the title and the
  kind's own field.
- The modelled views carry no login mixin (`views.py:22`, `views.py:242`,
  `views.py:273`, `views.py:281`). The acting user is given as an id, so
  anonymous requests are not modelled. Such a request reaches the filter
  `course__owner=request.user` with an anonymous user and fails there. The
  reorder views are CSRF-exempt, and the CSRF check of the others is not
  modelled.
- Only the GET and POST methods of the content views are modelled, with HEAD
  running `get`. As written, once the dispatch checks pass, OPTIONS is
  answered 200 by `View.options`, and PUT, PATCH, DELETE and TRACE are
  answered 405 by `http_method_not_allowed`. Neither needs `module_id`, so
  neither raises.
- Only the views named above are modelled. Not modelled:
  - the other views: course CRUD, the module formset, content and module
    lists, course detail;
  - routing;
  - the bookmarklet script;
  - the enrolment form;
  - the network client `api_examples/enroll_all.py`;
  - the other applications (`actions`, `shoppingApp`).
- Account-form field validation is abstract. `EditCleanEmail`,
  `RegisterCleanEmail` and `SaveEdit` receive cleaned data. Django's own
  field checks run before `clean_email`: the e-mail format, `max_length` and
  required fields. An address such as `not-an-email` is refused there in
  `UserEditForm`, so it never reaches `SaveEdit`. An `EditForm` value stands
  for data that has already passed those checks.
- `ProfileEditForm` and `LoginForm` only declare fields, and are not
  modelled.
- `ModuleSerializer` and `CourseSerializer` (`api/serializers.py:27-41`) are
  not modelled. They are the same shapes as the modelled serialisers,
  without contents.
- `Course.total_modules` is carried as a field but never updated, as in the
  source.
- CourseModels.DeleteModule, CourseModels.DeleteCourse and
  CourseModels.DeleteSubject require the schema invariant, in which every
  content reaches its module and every module reaches its course. Each of
  them preserves it.
- Deleting users, and the cascades through owner keys, are not modelled.

## Findings

| source | as written | input that shows it | evidently intended | confidence | as-written member | corrected member |
|---|---|---|---|---|---|---|
| educa-platform/courses/views.py:68 | `dispatch` takes `module_id`, `model_name` and `id` as named parameters. It then forwards only the empty `*args, **kwargs`, so `View.dispatch` calls `get(request)` or `post(request)` without `module_id` and `model_name`. | Module 1 of a course owned by user 7, token `text`, no id: the call raises TypeError and nothing is written. | Forward the URL arguments, so the GET handler shows the editor and the POST handler saves the item. | not executed | CourseViews.NewTextAsWrittenFails | CourseViews.EditPage |
| educa-platform/courses/api/serializers.py:11 | `obj.courses` is used to count and to pick the popular courses. The reverse relation is declared as `related_name='course'` (`models.py:29`), so `courses` does not exist on a Subject. | Any subject: both fields raise an attribute error. | Count and rank the subject's courses through the declared relation. | not executed | CourseSerializers.SubjectAsWrittenFails | CourseSerializers.PopularAreTop |

=== FILE: account_forms.dfy ===
/**
 * The account forms: the e-mail uniqueness checks of the profile-edit and
 * registration forms, the repeated-password check, and the fields the
 * profile-edit form writes back.
 */
module AccountForms {
  import opened Wrappers

  /** The columns of the user record the forms read or write. */
  datatype User = User(username: string, firstName: string, lastName: string, email: string, password: string)

  /** The user table, by primary key. */
  type Users = map<int, User>

  datatype FormError =
    | KeyError(key: string)          // `cleaned_data[key]` on a field that failed its own cleaning
    | ValidationError(message: string)

  const EmailInUse := "Email already in use."
  const PasswordsDiffer := "passwords don't  match."

  /** No two users share an e-mail address. */
  predicate EmailsUnique(users: Users)
  {
    forall a, b :: a in users && b in users && users[a].email == users[b].email ==> a == b
  }

  /**
   * `UserEditForm.clean_email`: the address is refused when a user other
   * than the edited one holds it. `instance` is the edited user's id; an
   * unsaved instance has none, and excluding `id=None` excludes nobody.
   */
  function EditCleanEmail(users: Users, instance: Option<int>, email: string): (r: Result<string, FormError>)
    ensures r.Ok? <==> forall id :: id in users && Some(id) != instance ==> users[id].email != email
    ensures r.Ok? ==> r.value == email
    ensures r.Err? ==> r.error == ValidationError(EmailInUse)
  {
    if exists id :: id in users && Some(id) != instance && users[id].email == email then
      Err(ValidationError(EmailInUse))
    else Ok(email)
  }

  /** `UserRegistrationForm.clean_email`: the address is refused when any user holds it. */
  function RegisterCleanEmail(users: Users, email: string): (r: Result<string, FormError>)
    ensures r.Ok? <==> forall id :: id in users ==> users[id].email != email
    ensures r.Ok? ==> r.value == email
    ensures r.Err? ==> r.error == ValidationError(EmailInUse)
  {
    if exists id :: id in users && users[id].email == email then
      Err(ValidationError(EmailInUse))
    else Ok(email)
  }

  /**
   * `UserRegistrationForm.clean_password2`. `password` is None when the
   * first password field failed its own cleaning and so is missing from
   * `cleaned_data`; the lookup then raises.
   */
  function CleanPassword2(password: Option<string>, password2: string): (r: Result<string, FormError>)
    ensures r == Err(KeyError("password")) <==> password.None?
    ensures r.Ok? <==> password == Some(password2)
    ensures r.Ok? ==> r.value == password2
    ensures password.Some? && password.value != password2 ==> r == Err(ValidationError(PasswordsDiffer))
  {
    match password
    case None => Err(KeyError("password"))
    case Some(p) => if p != password2 then Err(ValidationError(PasswordsDiffer)) else Ok(password2)
  }

  /** A registration that passes has both entries equal to the password it returns. */
  lemma PasswordsAgree(password: Option<string>, password2: string)
    requires CleanPassword2(password, password2).Ok?
    ensures password == Some(CleanPassword2(password, password2).value)
    ensures password2 == CleanPassword2(password, password2).value
  {
  }

  /** The editable fields of `UserEditForm`, by form-field name. */
  const EditFields: seq<string> := ["first_name", "last_name", "email"]

  /** The cleaned data of `UserEditForm`, after Django's own field checks have passed. */
  datatype EditForm = EditForm(firstName: string, lastName: string, email: string)

  /** A user column by its model-field name. */
  function Field(u: User, name: string): (r: Option<string>)
    ensures r.Some? <==> name in {"username", "first_name", "last_name", "email", "password"}
  {
    match name
    case "username" => Some(u.username)
    case "first_name" => Some(u.firstName)
    case "last_name" => Some(u.lastName)
    case "email" => Some(u.email)
    case "password" => Some(u.password)
    case _ => None
  }

  /** A submitted value by form-field name. */
  function FormField(f: EditForm, name: string): (r: Option<string>)
    ensures r.Some? <==> name in EditFields
  {
    match name
    case "first_name" => Some(f.firstName)
    case "last_name" => Some(f.lastName)
    case "email" => Some(f.email)
    case _ => None
  }

  /** Saving a valid `UserEditForm` onto its instance. */
  function EditUser(u: User, f: EditForm): (r: User)
    ensures forall name :: name in EditFields ==> Field(r, name) == FormField(f, name)
    ensures forall name :: name !in EditFields ==> Field(r, name) == Field(u, name)
  {
    u.(firstName := f.firstName, lastName := f.lastName, email := f.email)
  }

  /** The whole edit: clean the e-mail, then write the three fields back. */
  function SaveEdit(users: Users, me: int, f: EditForm): (r: Result<Users, FormError>)
    requires me in users
    ensures r.Ok? <==> EditCleanEmail(users, Some(me), f.email).Ok?
    ensures r.Ok? ==>
      && r.value.Keys == users.Keys
      && r.value[me] == EditUser(users[me], f)
      && forall id :: id in users && id != me ==> r.value[id] == users[id]
    ensures r.Err? ==> r.error == ValidationError(EmailInUse)
  {
    match EditCleanEmail(users, Some(me), f.email)
    case Err(e) => Err(e)
    case Ok(_) => Ok(users[me := EditUser(users[me], f)])
  }

  /** While addresses are unique, a user may keep their own current address. */
  lemma OwnEmailAccepted(users: Users, me: int)
    requires EmailsUnique(users) && me in users
    ensures EditCleanEmail(users, Some(me), users[me].email) == Ok(users[me].email)
  {
  }

  /** Another user's address is always refused, unique or not. */
  lemma OthersEmailRefused(users: Users, me: Option<int>, other: int)
    requires other in users && me != Some(other)
    ensures EditCleanEmail(users, me, users[other].email) == Err(ValidationError(EmailInUse))
    ensures RegisterCleanEmail(users, users[other].email) == Err(ValidationError(EmailInUse))
  {
  }

  /** With no saved instance, the edit check is the registration check. */
  lemma UnsavedEditIsRegistration(users: Users, email: string)
    ensures EditCleanEmail(users, None, email) == RegisterCleanEmail(users, email)
  {
  }

  /** The registration check only grows stricter than the edit check. */
  lemma RegistrationStricter(users: Users, me: Option<int>, email: string)
    requires RegisterCleanEmail(users, email).Ok?
    ensures EditCleanEmail(users, me, email) == RegisterCleanEmail(users, email)
  {
  }

  /** Registering a new user whose address passed keeps addresses unique. */
  lemma RegistrationKeepsEmailsUnique(users: Users, id: int, u: User)
    requires EmailsUnique(users) && id !in users
    requires RegisterCleanEmail(users, u.email).Ok?
    ensures EmailsUnique(users[id := u])
  {
    var users' := users[id := u];
    forall a, b | a in users' && b in users' && users'[a].email == users'[b].email
      ensures a == b
    {
      if a != id && b != id {
        assert users[a].email == users[b].email;
      }
    }
  }

  /** A saved edit keeps addresses unique. */
  lemma EditKeepsEmailsUnique(users: Users, me: int, f: EditForm)
    requires EmailsUnique(users) && me in users
    requires SaveEdit(users, me, f).Ok?
    ensures EmailsUnique(SaveEdit(users, me, f).value)
  {
    var users' := SaveEdit(users, me, f).value;
    forall a, b | a in users' && b in users' && users'[a].email == users'[b].email
      ensures a == b
    {
      if a != me && b != me {
        assert users[a].email == users[b].email;
      }
    }
  }
}

=== FILE: course_models.dfy ===
/**
 * The course platform's records: Subject -> Course -> Module -> Content,
 * the four item kinds a Content points at, the order scopes and default
 * orderings, the delete cascades, a module's label and an item's template.
 */
module CourseModels {
  import opened Wrappers
  import opened Ordering
  import Decimal

  type UserId = int

  /** The four item models a Content may reference. */
  datatype Kind = Text | Video | Image | File

  /** The model name of each item class, which is also its URL token. */
  function KindName(k: Kind): string
  {
    match k
    case Text => "text"
    case Video => "video"
    case Image => "image"
    case File => "file"
  }

  datatype Subject = Subject(title: string, slug: string)

  datatype Course = Course(
    owner: UserId,
    subject: int,
    title: string,
    slug: string,
    overview: string,
    created: int,
    students: set<UserId>,
    totalModules: int)

  /** `order` is scoped by `course`. */
  datatype Module = Module(course: int, title: string, description: string, order: int)

  /** A generic reference: the item's kind (its content type) and its object id. */
  datatype ItemRef = ItemRef(kind: Kind, objectId: nat)

  /** `order` is scoped by `moduleId`, the module it belongs to. */
  datatype Content = Content(moduleId: int, item: ItemRef, order: int)

  /**
   * A Text, Video, Image or File row: the common owner and title, and the
   * one field of its own (text, url or uploaded file name) as `body`.
   */
  datatype Item = Item(owner: UserId, title: string, body: string)

  /** The tables, keyed by primary key; items are keyed by kind and id. */
  datatype Db = Db(
    subjects: map<int, Subject>,
    courses: map<int, Course>,
    modules: map<int, Module>,
    contents: map<int, Content>,
    items: map<ItemRef, Item>)

  /** The unique constraints on Subject.slug and Course.slug. */
  predicate SlugsUnique(db: Db)
  {
    && (forall a, b :: a in db.subjects && b in db.subjects && db.subjects[a].slug == db.subjects[b].slug ==> a == b)
    && (forall a, b :: a in db.courses && b in db.courses && db.courses[a].slug == db.courses[b].slug ==> a == b)
  }

  /** The schema's invariant: unique slugs and no dangling foreign key. */
  predicate Wellformed(db: Db)
  {
    && SlugsUnique(db)
    && (forall c :: c in db.courses ==> db.courses[c].subject in db.subjects)
    && (forall m :: m in db.modules ==> db.modules[m].course in db.courses)
    && (forall c :: c in db.contents ==> db.contents[c].moduleId in db.modules)
  }

  /** `Module.objects.filter(id=id, course__owner=user)` is non-empty. */
  predicate ModuleOwnedBy(db: Db, id: int, user: UserId)
  {
    id in db.modules && db.modules[id].course in db.courses
    && db.courses[db.modules[id].course].owner == user
  }

  /** `Content.objects.filter(id=id, module__course__owner=user)` is non-empty. */
  predicate ContentOwnedBy(db: Db, id: int, user: UserId)
  {
    id in db.contents && ModuleOwnedBy(db, db.contents[id].moduleId, user)
  }

  lemma SingletonKeys()
    ensures forall x, y :: LexLe([x], [y]) <==> x <= y
  {
    forall x, y ensures LexLe([x], [y]) <==> x <= y { LexLeSingleton(x, y); }
  }

  // ---- Children in their default order ----

  /** The courses of a subject: the reverse relation named `course`. */
  function CourseIdsOf(db: Db, subject: int): set<int>
  {
    set c | c in db.courses && db.courses[c].subject == subject
  }

  function ModuleIdsOf(db: Db, course: int): set<int>
  {
    set m | m in db.modules && db.modules[m].course == course
  }

  /** `course.modules.all()`: the course's modules, ascending `order`. */
  function ModulesInOrder(db: Db, course: int): (r: seq<int>)
    ensures |r| == |ModuleIdsOf(db, course)|
    ensures forall x :: x in r <==> x in db.modules && db.modules[x].course == course
    ensures forall i, j :: 0 <= i < j < |r| ==>
      r[i] != r[j] && db.modules[r[i]].order <= db.modules[r[j]].order
  {
    var keys := map m | m in db.modules :: [db.modules[m].order];
    SingletonKeys();
    SortIds(keys, ModuleIdsOf(db, course))
  }

  function ContentIdsOf(db: Db, moduleId: int): set<int>
  {
    set c | c in db.contents && db.contents[c].moduleId == moduleId
  }

  /** `module.contents.all()`: the module's contents, ascending `order`. */
  function ContentsInOrder(db: Db, moduleId: int): (r: seq<int>)
    ensures |r| == |ContentIdsOf(db, moduleId)|
    ensures forall x :: x in r <==> x in db.contents && db.contents[x].moduleId == moduleId
    ensures forall i, j :: 0 <= i < j < |r| ==>
      r[i] != r[j] && db.contents[r[i]].order <= db.contents[r[j]].order
  {
    var keys := map c | c in db.contents :: [db.contents[c].order];
    SingletonKeys();
    SortIds(keys, ContentIdsOf(db, moduleId))
  }

  /** A title as its sequence of code points. */
  function TitleKey(t: string): (k: seq<int>)
    ensures |k| == |t|
  {
    seq(|t|, i requires 0 <= i < |t| => t[i] as int)
  }

  /** `Subject.objects.all()`: every subject, by ascending title. */
  function SubjectsInOrder(db: Db): (r: seq<int>)
    ensures |r| == |db.subjects|
    ensures forall x :: x in r <==> x in db.subjects
    ensures forall i, j :: 0 <= i < j < |r| ==>
      r[i] != r[j] && LexLe(TitleKey(db.subjects[r[i]].title), TitleKey(db.subjects[r[j]].title))
  {
    var keys := map s | s in db.subjects :: TitleKey(db.subjects[s].title);
    var r := SortIds(keys, db.subjects.Keys);
    assert forall i :: 0 <= i < |r| ==> LexLe(keys[r[i]], keys[r[i]]) by {
      forall i | 0 <= i < |r| { LexLeRefl(keys[r[i]]); }
    }
    r
  }

  /** The courses among `ids`, by descending `created`. */
  function CoursesInOrder(db: Db, ids: set<int>): (r: seq<int>)
    requires ids <= db.courses.Keys
    ensures |r| == |ids|
    ensures forall x :: x in r <==> x in ids
    ensures forall i, j :: 0 <= i < j < |r| ==>
      r[i] != r[j] && db.courses[r[i]].created >= db.courses[r[j]].created
  {
    var keys := map c | c in db.courses :: [-db.courses[c].created];
    SingletonKeys();
    SortIds(keys, ids)
  }

  // ---- on_delete=CASCADE ----

  /** Deleting a module deletes its contents; the items they point at stay. */
  function DeleteModule(db: Db, id: int): (r: Db)
    requires Wellformed(db)
    ensures Wellformed(r)
    ensures r.modules.Keys == db.modules.Keys - {id}
    ensures forall c :: c in r.contents <==> c in db.contents && db.contents[c].moduleId != id
    ensures forall m :: m in r.modules ==> r.modules[m] == db.modules[m]
    ensures forall c :: c in r.contents ==> r.contents[c] == db.contents[c]
    ensures r.subjects == db.subjects && r.courses == db.courses && r.items == db.items
  {
    db.(modules := db.modules - {id},
        contents := map c | c in db.contents && db.contents[c].moduleId != id :: db.contents[c])
  }

  /** Deleting a course deletes its modules and, through them, their contents. */
  function DeleteCourse(db: Db, id: int): (r: Db)
    requires Wellformed(db)
    ensures Wellformed(r)
    ensures r.courses.Keys == db.courses.Keys - {id}
    ensures forall m :: m in r.modules <==> m in db.modules && db.modules[m].course != id
    ensures forall c :: c in r.contents <==>
      c in db.contents && db.modules[db.contents[c].moduleId].course != id
    ensures forall k :: k in r.courses ==> r.courses[k] == db.courses[k]
    ensures forall m :: m in r.modules ==> r.modules[m] == db.modules[m]
    ensures forall c :: c in r.contents ==> r.contents[c] == db.contents[c]
    ensures r.subjects == db.subjects && r.items == db.items
  {
    db.(courses := db.courses - {id},
        modules := map m | m in db.modules && db.modules[m].course != id :: db.modules[m],
        contents := map c | c in db.contents && db.modules[db.contents[c].moduleId].course != id
                      :: db.contents[c])
  }

  /** The subject a module belongs to, through its course. */
  function SubjectOfModule(db: Db, m: int): int
    requires Wellformed(db) && m in db.modules
  {
    db.courses[db.modules[m].course].subject
  }

  /** Deleting a subject deletes its courses, their modules and their contents. */
  function DeleteSubject(db: Db, id: int): (r: Db)
    requires Wellformed(db)
    ensures Wellformed(r)
    ensures r.subjects.Keys == db.subjects.Keys - {id}
    ensures forall k :: k in r.courses <==> k in db.courses && db.courses[k].subject != id
    ensures forall m :: m in r.modules <==> m in db.modules && SubjectOfModule(db, m) != id
    ensures forall c :: c in r.contents <==>
      c in db.contents && SubjectOfModule(db, db.contents[c].moduleId) != id
    ensures forall s :: s in r.subjects ==> r.subjects[s] == db.subjects[s]
    ensures forall k :: k in r.courses ==> r.courses[k] == db.courses[k]
    ensures forall m :: m in r.modules ==> r.modules[m] == db.modules[m]
    ensures forall c :: c in r.contents ==> r.contents[c] == db.contents[c]
    ensures r.items == db.items
  {
    db.(subjects := db.subjects - {id},
        courses := map k | k in db.courses && db.courses[k].subject != id :: db.courses[k],
        modules := map m | m in db.modules && SubjectOfModule(db, m) != id :: db.modules[m],
        contents := map c | c in db.contents && SubjectOfModule(db, db.contents[c].moduleId) != id
                      :: db.contents[c])
  }

  // ---- Module.__str__ and ItemBase.render ----

  /** `f'{self.order}. {self.title}'` */
  function ModuleLabel(m: Module): string
  {
    Decimal.IntToString(m.order) + ". " + m.title
  }

  /** Position of the first `.` in `s`, or `|s|` when there is none. */
  function FirstDot(s: string): (i: nat)
    ensures i <= |s|
  {
    if |s| == 0 || s[0] == '.' then 0 else 1 + FirstDot(s[1..])
  }

  lemma {:induction false} FirstDotAfter(s: string, t: string)
    requires '.' !in s
    ensures FirstDot(s + ". " + t) == |s|
  {
    if |s| > 0 {
      assert (s + ". " + t)[1..] == s[1..] + ". " + t;
      FirstDotAfter(s[1..], t);
    }
  }

  /** A label names its module's order and title unambiguously. */
  lemma ModuleLabelInjective(a: Module, b: Module)
    requires ModuleLabel(a) == ModuleLabel(b)
    ensures a.order == b.order && a.title == b.title
  {
    var sa, sb := Decimal.IntToString(a.order), Decimal.IntToString(b.order);
    var la, lb := ModuleLabel(a), ModuleLabel(b);
    Decimal.NoDotInIntToString(a.order);
    Decimal.NoDotInIntToString(b.order);
    FirstDotAfter(sa, a.title);
    FirstDotAfter(sb, b.title);
    assert sa == la[..|sa|] == lb[..|sb|] == sb;
    assert a.title == la[|sa| + 2..] == lb[|sb| + 2..] == b.title;
    Decimal.IntToStringInjective(a.order, b.order);
  }

  /** A call of `render_to_string(template, {"item": item})`. */
  datatype RenderCall = RenderCall(template: string, item: Item)

  /** `f"course/content/{model_name}.html"` */
  function TemplateName(k: Kind): string
  {
    "course/content/" + KindName(k) + ".html"
  }

  /** `item.render()`: the template is chosen by the item's kind alone. */
  function Render(kind: Kind, item: Item): (r: RenderCall)
    ensures r.template == TemplateName(kind) && r.item == item
  {
    RenderCall(TemplateName(kind), item)
  }

  /** Different kinds render through different templates. */
  lemma TemplateNameInjective(a: Kind, b: Kind)
    requires TemplateName(a) == TemplateName(b)
    ensures a == b
  {
    var ta, tb := TemplateName(a), TemplateName(b);
    assert |KindName(a)| == |ta| - 20 == |tb| - 20 == |KindName(b)|;
    assert KindName(a) == ta[15..|ta| - 5] == tb[15..|tb| - 5] == KindName(b);
  }
}

=== FILE: course_views.dfy ===
/**
 * The instructor-facing views of the course platform that act on the
 * tables: the content-kind gate and editor, content create/update and
 * delete, and the AJAX module and content reorder endpoints.
 */
module CourseViews {
  import opened Wrappers
  import opened CourseModels

  // ---- ContentCreateUpdateView.get_model / get_form ----

  /** `get_model`: only the four literal tokens name an item model. */
  function KindFromToken(token: string): (r: Option<Kind>)
    ensures r.Some? <==> token in {"text", "video", "image", "file"}
    ensures r.Some? ==> KindName(r.value) == token
  {
    if token == "text" then Some(Text)
    else if token == "video" then Some(Video)
    else if token == "image" then Some(Image)
    else if token == "file" then Some(File)
    else None
  }

  /** Every kind's own name passes the gate and comes back as that kind. */
  lemma KindTokenRoundTrip(k: Kind)
    ensures KindFromToken(KindName(k)) == Some(k)
  {
  }

  /** The fields the item form never offers. */
  const SystemFields: set<string> := {"owner", "order", "created", "updated"}

  /** The one field a kind adds to the common item fields. */
  function OwnField(k: Kind): string
  {
    match k
    case Text => "content"
    case Video => "url"
    case Image => "file"
    case File => "file"
  }

  /** The editable fields of an item model. */
  function ItemFields(k: Kind): set<string>
  {
    {"owner", "title", "created", "updated", OwnField(k)}
  }

  /** `get_form`: the model's fields minus the excluded ones. */
  function EditorFields(k: Kind): (r: set<string>)
    ensures r !! SystemFields
    ensures r == {"title", OwnField(k)}
  {
    ItemFields(k) - SystemFields
  }

  // ---- ContentCreateUpdateView.dispatch ----

  datatype HttpError = NotFound

  /** What dispatch resolves before GET or POST runs. */
  datatype Target = Target(moduleId: int, kind: Kind, obj: Option<nat>)

  /** Python truthiness of the optional `id` URL argument: 0 counts as absent. */
  predicate IdGiven(id: Option<nat>)
  {
    id.Some? && id.value != 0
  }

  /**
   * `dispatch`: the module must belong to a course of `user`, the token must
   * name a kind, and on update the item of that kind must be owned by `user`.
   */
  function Dispatch(db: Db, user: UserId, moduleId: int, token: string, id: Option<nat>)
    : (r: Result<Target, HttpError>)
    ensures r.Ok? <==>
      && ModuleOwnedBy(db, moduleId, user)
      && KindFromToken(token).Some?
      && (IdGiven(id) ==>
            var ref := ItemRef(KindFromToken(token).value, id.value);
            ref in db.items && db.items[ref].owner == user)
    ensures r.Ok? ==>
      && r.value.moduleId == moduleId
      && KindName(r.value.kind) == token
      && r.value.obj == (if IdGiven(id) then Some(id.value) else None)
  {
    if !ModuleOwnedBy(db, moduleId, user) then Err(NotFound)
    else match KindFromToken(token)
      case None => Err(NotFound)
      case Some(kind) =>
        if IdGiven(id) then
          var ref := ItemRef(kind, id.value);
          if ref in db.items && db.items[ref].owner == user then Ok(Target(moduleId, kind, Some(id.value)))
          else Err(NotFound)
        else Ok(Target(moduleId, kind, None))
  }

  /** What a content view answers. */
  datatype Response = NotFoundPage | FormPage | RedirectToContents(moduleId: int) | ServerError

  /** The form the GET handler shows: the kind's editor, bound to the item on update. */
  datatype Editor = Editor(fields: set<string>, instance: Option<Item>)

  function EditPage(db: Db, user: UserId, moduleId: int, token: string, id: Option<nat>)
    : (r: Result<Editor, HttpError>)
    ensures r.Ok? <==> Dispatch(db, user, moduleId, token, id).Ok?
    ensures r.Ok? ==> r.value.fields == EditorFields(KindFromToken(token).value)
    ensures r.Ok? ==> r.value.fields !! SystemFields
    ensures r.Ok? ==> (r.value.instance.Some? <==> IdGiven(id))
    ensures r.Ok? && IdGiven(id) ==>
      var ref := ItemRef(KindFromToken(token).value, id.value);
      ref in db.items && r.value.instance == Some(db.items[ref]) && db.items[ref].owner == user
  {
    match Dispatch(db, user, moduleId, token, id)
    case Err(e) => Err(e)
    case Ok(t) =>
      var instance := if t.obj.Some? then Some(db.items[ItemRef(t.kind, t.obj.value)]) else None;
      Ok(Editor(EditorFields(t.kind), instance))
  }

  /**
   * A GET, HEAD or POST request as `dispatch` is written: after its checks
   * it forwards only the request to `get` or `post` (HEAD runs `get`), whose
   * `module_id` and `model_name` are then missing, so the call raises.
   * Nothing is written either way.
   */
  function ContentRequestAsWritten(db: Db, user: UserId, moduleId: int, token: string, id: Option<nat>)
    : (r: Response)
    ensures r == NotFoundPage <==> Dispatch(db, user, moduleId, token, id).Err?
    ensures r != NotFoundPage ==> r == ServerError
  {
    if Dispatch(db, user, moduleId, token, id).Err? then NotFoundPage else ServerError
  }

  /**
   * Whenever the checks pass, a GET, HEAD or POST request as written
   * fails, while the intended GET shows the editor.
   */
  lemma HandlersUnreachableAsWritten(db: Db, user: UserId, moduleId: int, token: string, id: Option<nat>)
    requires Dispatch(db, user, moduleId, token, id).Ok?
    ensures ContentRequestAsWritten(db, user, moduleId, token, id) == ServerError
    ensures EditPage(db, user, moduleId, token, id).Ok?
  {
  }

  /** One such request: a new text item in a module of user 7's course. */
  lemma NewTextAsWrittenFails(db: Db)
    requires db == Db(map[1 := Subject("S", "s")],
                      map[1 := Course(7, 1, "C", "c", "", 0, {}, 0)],
                      map[1 := Module(1, "M", "", 0)],
                      map[], map[])
    ensures ContentRequestAsWritten(db, 7, 1, "text", None) == ServerError
    ensures EditPage(db, 7, 1, "text", None) == Ok(Editor({"title", "content"}, None))
  {
    assert ModuleOwnedBy(db, 1, 7);
    assert KindFromToken("text") == Some(Text);
  }

  // ---- ModuleOrderView.post / ContentOrderView.post, one pair at a time ----

  /** One `Module.objects.filter(id=id, course__owner=user).update(order=order)`. */
  function SetModuleOrder(db: Db, user: UserId, id: int, order: int): Db
  {
    if ModuleOwnedBy(db, id, user) then db.(modules := db.modules[id := db.modules[id].(order := order)])
    else db
  }

  /** The pairs of the request body applied in turn. */
  function ReorderModules(db: Db, user: UserId, batch: seq<(int, int)>): Db
  {
    if batch == [] then db
    else
      var (id, order) := batch[|batch| - 1];
      SetModuleOrder(ReorderModules(db, user, batch[..|batch| - 1]), user, id, order)
  }

  /** One `Content.objects.filter(id=id, module__course__owner=user).update(order=order)`. */
  function SetContentOrder(db: Db, user: UserId, id: int, order: int): Db
  {
    if ContentOwnedBy(db, id, user) then db.(contents := db.contents[id := db.contents[id].(order := order)])
    else db
  }

  function ReorderContents(db: Db, user: UserId, batch: seq<(int, int)>): Db
  {
    if batch == [] then db
    else
      var (id, order) := batch[|batch| - 1];
      SetContentOrder(ReorderContents(db, user, batch[..|batch| - 1]), user, id, order)
  }

  /** The order the last pair naming `id` asks for, if any pair does. */
  function LastOrder(batch: seq<(int, int)>, id: int): Option<int>
  {
    if batch == [] then None
    else if batch[|batch| - 1].0 == id then Some(batch[|batch| - 1].1)
    else LastOrder(batch[..|batch| - 1], id)
  }

  /** The order a row ends with: the requested one if it is owned and named, its own otherwise. */
  function NewOrder(owned: bool, batch: seq<(int, int)>, id: int, current: int): int
  {
    if owned && LastOrder(batch, id).Some? then LastOrder(batch, id).value else current
  }

  /**
   * A module reorder changes no table but modules, no module's id, and no
   * field but `order`; a module takes the last order given for it if
   * `user` owns its course, and keeps its order otherwise.  No check is
   * made that the new orders are distinct or contiguous.
   */
  lemma {:induction false} ReorderModulesEffect(db: Db, user: UserId, batch: seq<(int, int)>)
    ensures var r := ReorderModules(db, user, batch);
      && r.subjects == db.subjects && r.courses == db.courses
      && r.contents == db.contents && r.items == db.items
      && r.modules.Keys == db.modules.Keys
      && (forall id :: id in db.modules ==>
            r.modules[id] == db.modules[id].(order :=
              NewOrder(ModuleOwnedBy(db, id, user), batch, id, db.modules[id].order)))
      && (forall id :: id in db.modules && !ModuleOwnedBy(db, id, user) ==> r.modules[id] == db.modules[id])
      && (Wellformed(db) ==> Wellformed(r))
  {
    if batch != [] {
      var prefix := batch[..|batch| - 1];
      ReorderModulesEffect(db, user, prefix);
      var p := ReorderModules(db, user, prefix);
      forall id | id in p.modules ensures ModuleOwnedBy(p, id, user) == ModuleOwnedBy(db, id, user) {
      }
    }
  }

  /** The same for contents, whose ownership is reached through module and course. */
  lemma {:induction false} ReorderContentsEffect(db: Db, user: UserId, batch: seq<(int, int)>)
    ensures var r := ReorderContents(db, user, batch);
      && r.subjects == db.subjects && r.courses == db.courses
      && r.modules == db.modules && r.items == db.items
      && r.contents.Keys == db.contents.Keys
      && (forall id :: id in db.contents ==>
            r.contents[id] == db.contents[id].(order :=
              NewOrder(ContentOwnedBy(db, id, user), batch, id, db.contents[id].order)))
      && (forall id :: id in db.contents && !ContentOwnedBy(db, id, user) ==> r.contents[id] == db.contents[id])
      && (Wellformed(db) ==> Wellformed(r))
  {
    if batch != [] {
      var prefix := batch[..|batch| - 1];
      ReorderContentsEffect(db, user, prefix);
      var p := ReorderContents(db, user, prefix);
      forall id | id in p.contents ensures ContentOwnedBy(p, id, user) == ContentOwnedBy(db, id, user) {
      }
    }
  }

  // ---- the views that write ----

  /** The cleaned data of a valid item form: title and the kind's own field. */
  datatype ItemForm = ItemForm(title: string, body: string)

  /** The contents sharing a module: the scope in which OrderField numbers a new one. */
  function Siblings(db: Db, moduleId: int): map<int, Content>
  {
    map c | c in db.contents && db.contents[c].moduleId == moduleId :: db.contents[c]
  }

  class Store {
    var db: Db

    ghost predicate Valid()
      reads this
    {
      Wellformed(db)
    }

    constructor (initial: Db)
      requires Wellformed(initial)
      ensures Valid() && db == initial
    {
      db := initial;
    }

    /** `ModuleOrderView.post`: the reply is always `{'saved': 'OK'}`. */
    method ModuleOrder(user: UserId, batch: seq<(int, int)>) returns (saved: string)
      requires Valid()
      modifies this
      ensures Valid()
      ensures db == ReorderModules(old(db), user, batch)
      ensures saved == "OK"
    {
      var i := 0;
      while i < |batch|
        invariant 0 <= i <= |batch|
        invariant db == ReorderModules(old(db), user, batch[..i])
      {
        var (id, order) := batch[i];
        if ModuleOwnedBy(db, id, user) {
          db := db.(modules := db.modules[id := db.modules[id].(order := order)]);
        }
        assert batch[..i + 1][..i] == batch[..i];
        i := i + 1;
      }
      assert batch[..|batch|] == batch;
      ReorderModulesEffect(old(db), user, batch);
      saved := "OK";
    }

    /** `ContentOrderView.post`: the reply is always `{'saved': 'OK'}`. */
    method ContentOrder(user: UserId, batch: seq<(int, int)>) returns (saved: string)
      requires Valid()
      modifies this
      ensures Valid()
      ensures db == ReorderContents(old(db), user, batch)
      ensures saved == "OK"
    {
      var i := 0;
      while i < |batch|
        invariant 0 <= i <= |batch|
        invariant db == ReorderContents(old(db), user, batch[..i])
      {
        var (id, order) := batch[i];
        if ContentOwnedBy(db, id, user) {
          db := db.(contents := db.contents[id := db.contents[id].(order := order)]);
        }
        assert batch[..i + 1][..i] == batch[..i];
        i := i + 1;
      }
      assert batch[..|batch|] == batch;
      ReorderContentsEffect(old(db), user, batch);
      saved := "OK";
    }

    /**
     * `ContentCreateUpdateView.post` after dispatch.  `form` is the cleaned
     * data, or None when validation failed; `newItemId` and `newContentId`
     * are the keys the database hands out for new rows; `nextOrder` is what
     * OrderField computes from the module's existing contents.
     */
    method ContentPost(user: UserId, moduleId: int, token: string, id: Option<nat>,
                       form: Option<ItemForm>, newItemId: nat, newContentId: int,
                       nextOrder: map<int, Content> -> int)
      returns (resp: Response)
      requires Valid()
      requires KindFromToken(token).Some? ==> ItemRef(KindFromToken(token).value, newItemId) !in db.items
      requires newContentId !in db.contents
      modifies this
      ensures Valid()
      ensures Dispatch(old(db), user, moduleId, token, id).Err? ==> resp == NotFoundPage && db == old(db)
      ensures Dispatch(old(db), user, moduleId, token, id).Ok? && form.None? ==> resp == FormPage && db == old(db)
      ensures Dispatch(old(db), user, moduleId, token, id).Ok? && form.Some? ==>
        var kind := KindFromToken(token).value;
        var ref := ItemRef(kind, if IdGiven(id) then id.value else newItemId);
        && resp == RedirectToContents(moduleId)
        && db.items == old(db.items)[ref := Item(user, form.value.title, form.value.body)]
        && db.contents == (if IdGiven(id) then old(db.contents)
                           else old(db.contents)[newContentId :=
                                  Content(moduleId, ref, nextOrder(Siblings(old(db), moduleId)))])
        && db.subjects == old(db.subjects) && db.courses == old(db.courses)
        && db.modules == old(db.modules)
    {
      var target := Dispatch(db, user, moduleId, token, id);
      if target.Err? {
        return NotFoundPage;
      }
      if form.None? {
        return FormPage;
      }
      var t := target.value;
      var ref := ItemRef(t.kind, if t.obj.Some? then t.obj.value else newItemId);
      db := db.(items := db.items[ref := Item(user, form.value.title, form.value.body)]);
      if !IdGiven(id) {
        var order := nextOrder(Siblings(db, moduleId));
        db := db.(contents := db.contents[newContentId := Content(moduleId, ref, order)]);
      }
      resp := RedirectToContents(moduleId);
    }

    /**
     * `ContentDeleteView.post`: deletes the item and then the content.  A
     * content whose item is gone has `item` None, so `item.delete()` fails
     * before anything is deleted.
     */
    method ContentDelete(user: UserId, contentId: int) returns (resp: Response)
      requires Valid()
      modifies this
      ensures Valid()
      ensures !ContentOwnedBy(old(db), contentId, user) ==> resp == NotFoundPage && db == old(db)
      ensures ContentOwnedBy(old(db), contentId, user) ==>
        var c := old(db.contents)[contentId];
        if c.item in old(db.items) then
          && resp == RedirectToContents(c.moduleId)
          && db == old(db).(items := old(db.items) - {c.item}, contents := old(db.contents) - {contentId})
        else
          resp == ServerError && db == old(db)
    {
      if !ContentOwnedBy(db, contentId, user) {
        return NotFoundPage;
      }
      var c := db.contents[contentId];
      if c.item !in db.items {
        return ServerError;
      }
      db := db.(items := db.items - {c.item});
      db := db.(contents := db.contents - {contentId});
      resp := RedirectToContents(c.moduleId);
    }
  }
}

=== FILE: decimal.dfy ===
/**
 * Python's `str(int)` for the places where the source interpolates an
 * integer into text: the cache key `subject_{id}_courses` and the module
 * label `{order}. {title}`.  `ParseInt` is its inverse, which gives
 * injectivity of the rendering.
 */
module Decimal {

  predicate IsDigit(c: char) { '0' <= c <= '9' }

  function DigitChar(d: nat): (c: char)
    requires d < 10
    ensures IsDigit(c)
  {
    "0123456789"[d]
  }

  function DigitValue(c: char): (d: nat)
    requires IsDigit(c)
    ensures d < 10
  {
    (c as int) - ('0' as int)
  }

  /** Decimal digits of `n`, most significant first, no leading zeros. */
  function NatToString(n: nat): (s: string)
    ensures |s| > 0
    ensures forall i :: 0 <= i < |s| ==> IsDigit(s[i])
  {
    if n < 10 then [DigitChar(n)] else NatToString(n / 10) + [DigitChar(n % 10)]
  }

  function ParseNat(s: string): nat
    requires forall i :: 0 <= i < |s| ==> IsDigit(s[i])
  {
    if |s| == 0 then 0 else ParseNat(s[..|s| - 1]) * 10 + DigitValue(s[|s| - 1])
  }

  /** `str(i)`: a minus sign before the digits of a negative number. */
  function IntToString(i: int): (s: string)
    ensures |s| > 0
    ensures forall k :: 0 <= k < |s| ==> IsDigit(s[k]) || (k == 0 && s[k] == '-')
  {
    if i < 0 then "-" + NatToString(-i) else NatToString(i)
  }

  function ParseInt(s: string): int
    requires |s| > 0
    requires forall k :: 0 <= k < |s| ==> IsDigit(s[k]) || (k == 0 && s[k] == '-')
  {
    if s[0] == '-' then -(ParseNat(s[1..]) as int) else ParseNat(s)
  }

  lemma DigitRoundTrip(d: nat)
    requires d < 10
    ensures DigitValue(DigitChar(d)) == d
  {
  }

  lemma {:induction false} NatRoundTrip(n: nat)
    ensures ParseNat(NatToString(n)) == n
  {
    if n < 10 {
      DigitRoundTrip(n);
    } else {
      var s := NatToString(n);
      assert s[..|s| - 1] == NatToString(n / 10);
      NatRoundTrip(n / 10);
      DigitRoundTrip(n % 10);
    }
  }

  /** Reading back what `IntToString` wrote gives the number. */
  lemma IntRoundTrip(i: int)
    ensures ParseInt(IntToString(i)) == i
  {
    if i < 0 {
      var s := IntToString(i);
      assert s[1..] == NatToString(-i);
      assert s[0] == '-';
      NatRoundTrip(-i);
    } else {
      NatRoundTrip(i);
    }
  }

  /** Distinct integers have distinct renderings. */
  lemma IntToStringInjective(a: int, b: int)
    ensures IntToString(a) == IntToString(b) ==> a == b
  {
    IntRoundTrip(a);
    IntRoundTrip(b);
  }

  /** The rendering of an integer never contains a dot. */
  lemma NoDotInIntToString(i: int)
    ensures '.' !in IntToString(i)
  {
  }
}

=== FILE: image_forms.dfy ===
/**
 * The image bookmark form: the check that a bookmarked URL names a
 * JPEG or PNG file, and the file name under which the image is stored.
 */
module ImageForms {
  import opened Wrappers

  /** How `clean_url` can fail. */
  datatype UrlError =
    | IndexError            // `rsplit('.', 1)[1]` on a URL without a dot
    | ValidationError(message: string)

  const BadExtensionMessage := "The given URL does not match valid images extensions."

  const ValidExtensions: seq<string> := ["jpg", "jpeg", "png"]

  /** Position of the last '.' in `s`, if any. */
  function LastDot(s: string): (r: Option<nat>)
    ensures r.None? <==> '.' !in s
    ensures r.Some? ==> r.value < |s| && s[r.value] == '.'
    ensures r.Some? ==> forall j :: r.value < j < |s| ==> s[j] != '.'
  {
    if |s| == 0 then None
    else if s[|s| - 1] == '.' then Some(|s| - 1)
    else
      var p := LastDot(s[..|s| - 1]);
      assert s == s[..|s| - 1] + [s[|s| - 1]];
      p
  }

  /** `url.rsplit('.', 1)[1]`: the text after the last dot; None where the index fails. */
  function Extension(url: string): (r: Option<string>)
    ensures r.None? <==> '.' !in url
    ensures r.Some? ==>
      && '.' !in r.value && |r.value| < |url|
      && url[|url| - |r.value| - 1] == '.' && url[|url| - |r.value|..] == r.value
  {
    match LastDot(url)
    case None => None
    case Some(p) => Some(url[p + 1..])
  }

  /** `str.lower()` on ASCII letters; every other character is kept. */
  function LowerChar(c: char): (r: char)
    ensures 'A' <= c <= 'Z' ==> r as int == c as int + 32
    ensures !('A' <= c <= 'Z') ==> r == c
  {
    if 'A' <= c <= 'Z' then (c as int + 32) as char else c
  }

  function Lower(s: string): (r: string)
    ensures |r| == |s|
    ensures forall i :: 0 <= i < |s| ==> r[i] == LowerChar(s[i])
  {
    if |s| == 0 then [] else [LowerChar(s[0])] + Lower(s[1..])
  }

  /** `ImageCreateForm.clean_url`. */
  function CleanUrl(url: string): (r: Result<string, UrlError>)
    ensures r == Err(IndexError) <==> '.' !in url
    ensures r.Ok? <==> Extension(url).Some? && Lower(Extension(url).value) in ValidExtensions
    ensures r.Ok? ==> r.value == url
    ensures r.Err? && r.error != IndexError ==> r.error == ValidationError(BadExtensionMessage)
  {
    match Extension(url)
    case None => Err(IndexError)
    case Some(ext) =>
      if Lower(ext) !in ValidExtensions then Err(ValidationError(BadExtensionMessage))
      else Ok(url)
  }

  lemma {:induction false} LastDotOfJoin(base: string, ext: string)
    requires '.' !in ext
    ensures LastDot(base + "." + ext) == Some(|base|)
    decreases |ext|
  {
    var s := base + "." + ext;
    if |ext| > 0 {
      var e' := ext[..|ext| - 1];
      assert s[..|s| - 1] == base + "." + e';
      assert s[|s| - 1] == ext[|ext| - 1];
      LastDotOfJoin(base, e');
    }
  }

  /** Whatever precedes the last dot, the extension is the dot-free text after it. */
  lemma ExtensionOfJoin(base: string, ext: string)
    requires '.' !in ext
    ensures Extension(base + "." + ext) == Some(ext)
  {
    LastDotOfJoin(base, ext);
    assert (base + "." + ext)[|base| + 1..] == ext;
  }

  /** A dot never appears in, nor disappears from, lowered text. */
  lemma {:induction false} LowerKeepsDots(s: string)
    ensures '.' in Lower(s) <==> '.' in s
  {
    if '.' in s {
      var i :| 0 <= i < |s| && s[i] == '.';
      assert Lower(s)[i] == '.';
    }
    if '.' in Lower(s) {
      var i :| 0 <= i < |s| && Lower(s)[i] == '.';
      assert LowerChar(s[i]) == '.';
    }
  }

  lemma {:induction false} LowerIdempotent(s: string)
    ensures Lower(Lower(s)) == Lower(s)
  {
    forall i | 0 <= i < |s|
      ensures Lower(Lower(s))[i] == Lower(s)[i]
    {
      assert Lower(s)[i] == LowerChar(s[i]);
    }
  }

  /** Helper for literal texts: `Lower(s) == t` follows character by character. */
  lemma LowerFacts(s: string, t: string)
    requires |s| == |t| && forall i :: 0 <= i < |s| ==> LowerChar(s[i]) == t[i]
    ensures Lower(s) == t
  {
  }

  /** `clean_url` as seen from the last dot: the verdict depends only on what follows it. */
  lemma CleanAt(url: string, p: nat)
    requires p < |url| && url[p] == '.' && '.' !in url[p + 1..]
    ensures CleanUrl(url) ==
      if Lower(url[p + 1..]) in ValidExtensions then Ok(url)
      else Err(ValidationError(BadExtensionMessage))
  {
    assert url == url[..p] + "." + url[p + 1..];
    ExtensionOfJoin(url[..p], url[p + 1..]);
  }

  /** Lowering keeps every dot where it was. */
  lemma {:induction false} LastDotOfLower(s: string)
    ensures LastDot(Lower(s)) == LastDot(s)
    decreases |s|
  {
    if |s| > 0 {
      var t := s[..|s| - 1];
      assert Lower(s)[|s| - 1] == '.' <==> s[|s| - 1] == '.';
      assert Lower(s)[..|s| - 1] == Lower(t);
      LastDotOfLower(t);
    }
  }

  lemma LowerSlice(s: string, k: nat)
    requires k <= |s|
    ensures Lower(s[k..]) == Lower(s)[k..]
  {
    forall i | 0 <= i < |s| - k
      ensures Lower(s[k..])[i] == Lower(s)[k..][i]
    {
      assert s[k..][i] == s[k + i];
    }
  }

  /** The extension of the lowered URL is the lowered extension. */
  lemma ExtensionOfLower(url: string)
    requires '.' in url
    ensures Extension(Lower(url)) == Some(Lower(Extension(url).value))
  {
    var p := LastDot(url).value;
    LastDotOfLower(url);
    LowerSlice(url, p + 1);
  }

  /** None of the accepted extensions holds a '?'. */
  lemma NoQueryInValid(w: string)
    requires w in ValidExtensions
    ensures '?' !in w
  {
  }

  /** Letter case never changes the verdict: URLs equal up to case are accepted together. */
  lemma CaseInsensitive(u: string, v: string)
    requires Lower(u) == Lower(v)
    ensures CleanUrl(u).Ok? <==> CleanUrl(v).Ok?
  {
    LowerKeepsDots(u);
    LowerKeepsDots(v);
    if '.' in u {
      ExtensionOfLower(u);
      ExtensionOfLower(v);
      LowerIdempotent(Extension(u).value);
      LowerIdempotent(Extension(v).value);
    }
  }

  /**
   * A query string after an accepted extension is part of the extension,
   * so the URL is refused with the validation error.
   */
  lemma QuerySpoilsExtension(base: string, ext: string, query: string)
    requires '.' !in ext + query && |query| > 0 && query[0] == '?'
    ensures CleanUrl(base + "." + ext + query) == Err(ValidationError(BadExtensionMessage))
  {
    var e := ext + query;
    assert base + "." + ext + query == base + "." + e;
    ExtensionOfJoin(base, e);
    assert Lower(e)[|ext|] == '?';
    if Lower(e) in ValidExtensions {
      NoQueryInValid(Lower(e));
    }
  }

  /** `X.PNG` is accepted and returned as given. */
  lemma UpperCaseAccepted(url: string)
    requires url == "X.PNG"
    ensures CleanUrl(url) == Ok(url)
  {
    CleanAt(url, 1);
    LowerFacts(url[2..], "png");
  }

  /** Everything after the last dot is the extension: `a.png?x=1` is refused. */
  lemma QueryStringRejected(url: string)
    requires url == "a.png?x=1"
    ensures CleanUrl(url) == Err(ValidationError(BadExtensionMessage))
  {
    CleanAt(url, 1);
    assert Lower(url[2..])[3] == '?';
    if Lower(url[2..]) in ValidExtensions {
      NoQueryInValid(Lower(url[2..]));
    }
  }

  /** A URL without a dot fails by indexing, not by the validation error. */
  lemma NoDotIsIndexError(url: string)
    requires url == "localhost/image"
    ensures CleanUrl(url) == Err(IndexError)
  {
    assert forall i :: 0 <= i < |url| ==> url[i] != '.';
  }

  /**
   * The name `save` stores the downloaded file under:
   * `slugify(title) + "." + lower-cased extension of the URL`.
   */
  function ImageFileName(title: string, url: string, slugify: string -> string): (r: Option<string>)
    ensures r.None? <==> '.' !in url
    ensures r.Some? ==> r.value == slugify(title) + "." + Lower(Extension(url).value)
  {
    match Extension(url)
    case None => None
    case Some(ext) => Some(slugify(title) + "." + Lower(ext))
  }

  /**
   * For every accepted URL the stored file name exists, carries the URL's
   * extension lower-cased, and would itself pass `clean_url`.
   */
  lemma FileNameKeepsExtension(title: string, url: string, slugify: string -> string)
    requires CleanUrl(url).Ok?
    ensures ImageFileName(title, url, slugify).Some?
    ensures Extension(ImageFileName(title, url, slugify).value) == Some(Lower(Extension(url).value))
    ensures CleanUrl(ImageFileName(title, url, slugify).value).Ok?
  {
    var ext := Extension(url).value;
    LowerKeepsDots(ext);
    ExtensionOfJoin(slugify(title), Lower(ext));
    LowerIdempotent(ext);
  }
}

=== FILE: list_cache.dfy ===
/**
 * `CourseListView.get`: the public course catalogue, read through a
 * process-wide key/value cache.  A key is filled when it is absent or holds
 * an empty list, and nothing here ever removes or refreshes a key.
 */
module ListCache {
  import opened Wrappers
  import opened Ordering
  import opened CourseModels
  import Decimal

  /** A subject annotated with `total_courses=Count('course')`. */
  datatype SubjectRow = SubjectRow(id: int, subject: Subject, totalCourses: nat)

  /** A course annotated with `num_modules=Count('modules')`. */
  datatype CourseRow = CourseRow(id: int, course: Course, numModules: nat)

  datatype CacheValue = SubjectRows(subjects: seq<SubjectRow>) | CourseRows(courses: seq<CourseRow>)

  /** Python truthiness of a cached list: an empty one counts as a miss. */
  predicate Truthy(v: CacheValue)
  {
    match v
    case SubjectRows(s) => |s| > 0
    case CourseRows(c) => |c| > 0
  }

  const AllSubjectsKey: string := "all_subjects"
  const AllCoursesKey: string := "all_courses"

  /** `f'subject_{subject.id}_courses'` */
  function SubjectCoursesKey(id: int): string
  {
    "subject_" + Decimal.IntToString(id) + "_courses"
  }

  /** The three key rules never collide: each listing has a key of its own. */
  lemma KeysDistinct(a: int, b: int)
    ensures SubjectCoursesKey(a) != AllSubjectsKey
    ensures SubjectCoursesKey(a) != AllCoursesKey
    ensures AllCoursesKey != AllSubjectsKey
    ensures SubjectCoursesKey(a) == SubjectCoursesKey(b) ==> a == b
  {
    var ka, kb := SubjectCoursesKey(a), SubjectCoursesKey(b);
    assert ka[0] == 's';
    assert AllCoursesKey[4] != AllSubjectsKey[4];
    if ka == kb {
      assert Decimal.IntToString(a) == ka[8..|ka| - 8] == kb[8..|kb| - 8] == Decimal.IntToString(b);
      Decimal.IntToStringInjective(a, b);
    }
  }

  /** The listed subjects, each annotated with the number of its courses. */
  function SubjectRowsOf(db: Db, ids: seq<int>): (r: seq<SubjectRow>)
    requires forall i :: 0 <= i < |ids| ==> ids[i] in db.subjects
    ensures |r| == |ids|
    ensures forall i :: 0 <= i < |r| ==>
      r[i].id == ids[i] && r[i].subject == db.subjects[ids[i]]
      && r[i].totalCourses == |CourseIdsOf(db, ids[i])|
  {
    if ids == [] then []
    else [SubjectRow(ids[0], db.subjects[ids[0]], |CourseIdsOf(db, ids[0])|)] + SubjectRowsOf(db, ids[1..])
  }

  /** The listed courses, each annotated with the number of its modules. */
  function CourseRowsOf(db: Db, ids: seq<int>): (r: seq<CourseRow>)
    requires forall i :: 0 <= i < |ids| ==> ids[i] in db.courses
    ensures |r| == |ids|
    ensures forall i :: 0 <= i < |r| ==>
      r[i].id == ids[i] && r[i].course == db.courses[ids[i]]
      && r[i].numModules == |ModuleIdsOf(db, ids[i])|
  {
    if ids == [] then []
    else [CourseRow(ids[0], db.courses[ids[0]], |ModuleIdsOf(db, ids[0])|)] + CourseRowsOf(db, ids[1..])
  }

  /** The ids of a list of subject rows, in list order. */
  function SubjectIds(rows: seq<SubjectRow>): (r: seq<int>)
    ensures |r| == |rows| && forall i :: 0 <= i < |r| ==> r[i] == rows[i].id
  {
    if rows == [] then [] else [rows[0].id] + SubjectIds(rows[1..])
  }

  /** The ids of a list of course rows, in list order. */
  function CourseIds(rows: seq<CourseRow>): (r: seq<int>)
    ensures |r| == |rows| && forall i :: 0 <= i < |r| ==> r[i] == rows[i].id
  {
    if rows == [] then [] else [rows[0].id] + CourseIds(rows[1..])
  }

  /**
   * `Subject.objects.annotate(total_courses=Count('course'))`: every subject
   * once, by title, with the number of its courses.
   */
  function SubjectsWithCounts(db: Db): (r: seq<SubjectRow>)
    ensures |r| == |db.subjects|
    ensures forall s :: s in SubjectIds(r) <==> s in db.subjects
    ensures forall i :: 0 <= i < |r| ==>
      && r[i].id in db.subjects
      && r[i].subject == db.subjects[r[i].id]
      && r[i].totalCourses == |CourseIdsOf(db, r[i].id)|
    ensures forall i, j :: 0 <= i < j < |r| ==>
      r[i].id != r[j].id && LexLe(TitleKey(r[i].subject.title), TitleKey(r[j].subject.title))
  {
    var ids := SubjectsInOrder(db);
    var r := SubjectRowsOf(db, ids);
    assert SubjectIds(r) == ids;
    r
  }

  /**
   * `Course.objects.annotate(num_modules=Count('modules'))` restricted to
   * `ids`: each course once, newest first, with the number of its modules.
   */
  function CoursesWithCounts(db: Db, ids: set<int>): (r: seq<CourseRow>)
    requires ids <= db.courses.Keys
    ensures |r| == |ids|
    ensures forall c :: c in CourseIds(r) <==> c in ids
    ensures forall i :: 0 <= i < |r| ==>
      && r[i].id in ids
      && r[i].course == db.courses[r[i].id]
      && r[i].numModules == |ModuleIdsOf(db, r[i].id)|
    ensures forall i, j :: 0 <= i < j < |r| ==>
      r[i].id != r[j].id && r[i].course.created >= r[j].course.created
  {
    var order := CoursesInOrder(db, ids);
    var r := CourseRowsOf(db, order);
    assert CourseIds(r) == order;
    r
  }

  /** `get_object_or_404(Subject, slug=slug)`, without the 404. */
  function SubjectBySlug(db: Db, slug: string): (r: Option<int>)
    requires SlugsUnique(db)
    ensures r.Some? <==> exists s :: s in db.subjects && db.subjects[s].slug == slug
    ensures r.Some? ==> r.value in db.subjects && db.subjects[r.value].slug == slug
  {
    if exists s :: s in db.subjects && db.subjects[s].slug == slug then
      var s :| s in db.subjects && db.subjects[s].slug == slug;
      Some(s)
    else None
  }

  /**
   * `value = cache.get(key); if not value: value = computed; cache.set(key, value)`.
   * Returns the value used and the cache afterwards.
   */
  function GetOrCompute(entries: map<string, CacheValue>, key: string, computed: CacheValue)
    : (r: (CacheValue, map<string, CacheValue>))
    ensures key in r.1 && r.1[key] == r.0
    ensures r.1.Keys == entries.Keys + {key}
    ensures forall k :: k in entries && k != key ==> r.1[k] == entries[k]
    ensures key in entries && Truthy(entries[key]) ==> r.0 == entries[key] && r.1 == entries
    ensures !(key in entries && Truthy(entries[key])) ==> r.0 == computed
  {
    if key in entries && Truthy(entries[key]) then (entries[key], entries)
    else (computed, entries[key := computed])
  }

  /**
   * Once a non-empty value is stored, later reads return it whatever is
   * computed then: the cache is never invalidated.
   */
  lemma StoredValueSticks(entries: map<string, CacheValue>, key: string, computed: CacheValue, later: CacheValue)
    requires Truthy(computed)
    ensures var (v, e) := GetOrCompute(entries, key, computed);
      GetOrCompute(e, key, later) == (v, e)
  {
  }

  /** An empty result is never served from the cache: each read recomputes and stores again. */
  lemma EmptyValueRecomputed(entries: map<string, CacheValue>, key: string, computed: CacheValue, later: CacheValue)
    requires !(key in entries && Truthy(entries[key]))
    requires !Truthy(computed)
    ensures var (_, e) := GetOrCompute(entries, key, computed);
      GetOrCompute(e, key, later) == (later, e[key := later])
  {
  }

  datatype Page = Page(subjects: CacheValue, subject: Option<int>, courses: CacheValue)

  datatype ListResponse = Rendered(page: Page) | SubjectNotFound

  /** Python truthiness of the optional `subject` slug. */
  predicate SlugGiven(slug: Option<string>)
  {
    slug.Some? && |slug.value| > 0
  }

  /** The key under which a request for `slug` reads and fills its course list. */
  function CoursesKey(db: Db, slug: Option<string>): string
    requires SlugsUnique(db)
  {
    if SlugGiven(slug) && SubjectBySlug(db, slug.value).Some? then
      SubjectCoursesKey(SubjectBySlug(db, slug.value).value)
    else AllCoursesKey
  }

  /** The courses a request for `slug` lists: the subject's, or all of them. */
  function ListedCourses(db: Db, slug: Option<string>): (r: set<int>)
    requires SlugsUnique(db)
    ensures r <= db.courses.Keys
  {
    if SlugGiven(slug) && SubjectBySlug(db, slug.value).Some? then
      CourseIdsOf(db, SubjectBySlug(db, slug.value).value)
    else db.courses.Keys
  }

  /**
   * The whole of `CourseListView.get`: the response and the cache after it.
   * A missing subject answers 404 after `all_subjects` has been filled.
   */
  function CourseList(entries: map<string, CacheValue>, db: Db, slug: Option<string>)
    : (r: (ListResponse, map<string, CacheValue>))
    requires SlugsUnique(db)
    ensures r.1.Keys == entries.Keys + {AllSubjectsKey} + (if r.0.Rendered? then {CoursesKey(db, slug)} else {})
    ensures forall k :: k in entries && k != AllSubjectsKey && !(r.0.Rendered? && k == CoursesKey(db, slug)) ==>
      r.1[k] == entries[k]
    ensures AllSubjectsKey in entries && Truthy(entries[AllSubjectsKey]) ==>
      r.1[AllSubjectsKey] == entries[AllSubjectsKey]
    ensures r.0.SubjectNotFound? <==>
      SlugGiven(slug) && SubjectBySlug(db, slug.value).None?
    ensures r.0.Rendered? ==> r.1[AllSubjectsKey] == r.0.page.subjects
    ensures r.0.Rendered? && AllSubjectsKey in entries && Truthy(entries[AllSubjectsKey]) ==>
      r.0.page.subjects == entries[AllSubjectsKey]
    ensures !(AllSubjectsKey in entries && Truthy(entries[AllSubjectsKey])) ==>
      r.1[AllSubjectsKey] == SubjectRows(SubjectsWithCounts(db))
    ensures r.0.Rendered? ==>
      r.0.page.subject == (if SlugGiven(slug) then SubjectBySlug(db, slug.value) else None)
    ensures r.0.Rendered? ==> r.1[CoursesKey(db, slug)] == r.0.page.courses
    ensures r.0.Rendered? && CoursesKey(db, slug) in entries && Truthy(entries[CoursesKey(db, slug)]) ==>
      r.0.page.courses == entries[CoursesKey(db, slug)]
    ensures r.0.Rendered? && !(CoursesKey(db, slug) in entries && Truthy(entries[CoursesKey(db, slug)])) ==>
      r.0.page.courses == CourseRows(CoursesWithCounts(db, ListedCourses(db, slug)))
  {
    var (subjects, e1) := GetOrCompute(entries, AllSubjectsKey, SubjectRows(SubjectsWithCounts(db)));
    KeysDistinct(0, 0);
    if SlugGiven(slug) then
      match SubjectBySlug(db, slug.value)
      case None => (SubjectNotFound, e1)
      case Some(sid) =>
        KeysDistinct(sid, sid);
        var (courses, e2) := GetOrCompute(e1, SubjectCoursesKey(sid),
                                          CourseRows(CoursesWithCounts(db, CourseIdsOf(db, sid))));
        (Rendered(Page(subjects, Some(sid), courses)), e2)
    else
      var (courses, e2) := GetOrCompute(e1, AllCoursesKey, CourseRows(CoursesWithCounts(db, db.courses.Keys)));
      (Rendered(Page(subjects, None, courses)), e2)
  }

  /**
   * Serving the unfiltered catalogue twice: if the first request left
   * non-empty lists in the cache, the second returns the same page and
   * leaves the cache as it was, even if the store changed in between.
   */
  lemma CatalogueIgnoresLaterWrites(entries: map<string, CacheValue>, db: Db, db2: Db)
    requires SlugsUnique(db) && SlugsUnique(db2)
    requires CourseList(entries, db, None).0.Rendered?
    requires Truthy(CourseList(entries, db, None).0.page.subjects)
    requires Truthy(CourseList(entries, db, None).0.page.courses)
    ensures CourseList(CourseList(entries, db, None).1, db2, None) == CourseList(entries, db, None)
  {
    var (r1, e1) := CourseList(entries, db, None);
    var (s1, f1) := GetOrCompute(entries, AllSubjectsKey, SubjectRows(SubjectsWithCounts(db)));
    var (c1, g1) := GetOrCompute(f1, AllCoursesKey, CourseRows(CoursesWithCounts(db, db.courses.Keys)));
    assert e1 == g1;
    assert e1[AllSubjectsKey] == s1 by { KeysDistinct(0, 0); }
    var (s2, f2) := GetOrCompute(e1, AllSubjectsKey, SubjectRows(SubjectsWithCounts(db2)));
    assert s2 == s1 && f2 == e1;
  }

  class CourseListCache {
    var entries: map<string, CacheValue>

    constructor ()
      ensures entries == map[]
    {
      entries := map[];
    }

    /** `CourseListView.get(request, subject)` against the store `db`. */
    method Get(db: Db, slug: Option<string>) returns (resp: ListResponse)
      requires SlugsUnique(db)
      modifies this
      ensures (resp, entries) == CourseList(old(entries), db, slug)
      ensures old(entries).Keys <= entries.Keys
    {
      var subjects: CacheValue;
      if AllSubjectsKey in entries && Truthy(entries[AllSubjectsKey]) {
        subjects := entries[AllSubjectsKey];
      } else {
        subjects := SubjectRows(SubjectsWithCounts(db));
        entries := entries[AllSubjectsKey := subjects];
      }
      var courses: CacheValue;
      var subject: Option<int> := None;
      if SlugGiven(slug) {
        var found := SubjectBySlug(db, slug.value);
        if found.None? {
          return SubjectNotFound;
        }
        subject := found;
        var key := SubjectCoursesKey(found.value);
        if key in entries && Truthy(entries[key]) {
          courses := entries[key];
        } else {
          courses := CourseRows(CoursesWithCounts(db, CourseIdsOf(db, found.value)));
          entries := entries[key := courses];
        }
      } else {
        if AllCoursesKey in entries && Truthy(entries[AllCoursesKey]) {
          courses := entries[AllCoursesKey];
        } else {
          courses := CourseRows(CoursesWithCounts(db, db.courses.Keys));
          entries := entries[AllCoursesKey := courses];
        }
      }
      resp := Rendered(Page(subjects, subject, courses));
    }
  }
}

=== FILE: ordering.dfy ===
/**
 * The ordering a model's `Meta.ordering` imposes on a query result.
 * Each row id carries a sort key (a sequence of integers compared
 * lexicographically: `[order]`, `[-created]`, `[-total_students]`, or the
 * code points of a title); rows with equal keys come in ascending id order,
 * one of the orders the database may return them in.
 */
module Ordering {

  /** Lexicographic order on integer sequences; a proper prefix comes first. */
  predicate LexLe(a: seq<int>, b: seq<int>)
  {
    |a| == 0 || (|b| > 0 && (a[0] < b[0] || (a[0] == b[0] && LexLe(a[1..], b[1..]))))
  }

  lemma {:induction false} LexLeRefl(a: seq<int>)
    ensures LexLe(a, a)
  {
    if |a| > 0 { LexLeRefl(a[1..]); }
  }

  lemma {:induction false} LexLeTotal(a: seq<int>, b: seq<int>)
    ensures LexLe(a, b) || LexLe(b, a)
  {
    if |a| > 0 && |b| > 0 && a[0] == b[0] { LexLeTotal(a[1..], b[1..]); }
  }

  lemma {:induction false} LexLeTrans(a: seq<int>, b: seq<int>, c: seq<int>)
    requires LexLe(a, b) && LexLe(b, c)
    ensures LexLe(a, c)
  {
    if |a| > 0 && |b| > 0 && |c| > 0 && a[0] == b[0] == c[0] {
      LexLeTrans(a[1..], b[1..], c[1..]);
    }
  }

  lemma {:induction false} LexLeAntisym(a: seq<int>, b: seq<int>)
    requires LexLe(a, b) && LexLe(b, a)
    ensures a == b
  {
    if |a| > 0 {
      LexLeAntisym(a[1..], b[1..]);
      assert a == [a[0]] + a[1..];
      assert b == [b[0]] + b[1..];
    }
  }

  /** Single-integer keys compare as integers. */
  lemma LexLeSingleton(x: int, y: int)
    ensures LexLe([x], [y]) <==> x <= y
  {
    assert [x][1..] == [];
  }

  /** `x` is listed no later than `y`: smaller key, or equal key and smaller id. */
  predicate Before(keys: map<int, seq<int>>, x: int, y: int)
    requires x in keys && y in keys
  {
    if keys[x] == keys[y] then x <= y else LexLe(keys[x], keys[y])
  }

  predicate IsFirst(keys: map<int, seq<int>>, ids: set<int>, m: int)
    requires ids <= keys.Keys
  {
    m in ids && forall y :: y in ids ==> Before(keys, m, y)
  }

  lemma BeforeTotal(keys: map<int, seq<int>>, x: int, y: int)
    requires x in keys && y in keys
    ensures Before(keys, x, y) || Before(keys, y, x)
  {
    LexLeTotal(keys[x], keys[y]);
  }

  lemma BeforeTrans(keys: map<int, seq<int>>, x: int, y: int, z: int)
    requires x in keys && y in keys && z in keys
    requires Before(keys, x, y) && Before(keys, y, z)
    ensures Before(keys, x, z)
  {
    LexLeRefl(keys[x]);
    LexLeRefl(keys[y]);
    if keys[x] != keys[z] {
      LexLeTrans(keys[x], keys[y], keys[z]);
    } else if keys[x] != keys[y] {
      LexLeAntisym(keys[x], keys[y]);
    }
  }

  lemma BeforeAntisym(keys: map<int, seq<int>>, x: int, y: int)
    requires x in keys && y in keys
    requires Before(keys, x, y) && Before(keys, y, x)
    ensures x == y
  {
    if keys[x] != keys[y] { LexLeAntisym(keys[x], keys[y]); }
  }

  /** Every non-empty set of ids has a first element. */
  lemma {:induction false} FirstExists(keys: map<int, seq<int>>, ids: set<int>)
    requires ids <= keys.Keys && ids != {}
    ensures exists m :: IsFirst(keys, ids, m)
    decreases |ids|
  {
    assert exists y :: y in ids by {
      if forall y :: y !in ids { assert false; }
    }
    var x :| x in ids;
    if ids == {x} {
      BeforeTotal(keys, x, x);
      assert IsFirst(keys, ids, x);
    } else {
      FirstExists(keys, ids - {x});
      var m :| IsFirst(keys, ids - {x}, m);
      BeforeTotal(keys, m, x);
      if Before(keys, m, x) {
        assert IsFirst(keys, ids, m);
      } else {
        forall y | y in ids ensures Before(keys, x, y) {
          if y != x { BeforeTrans(keys, x, m, y); } else { BeforeTotal(keys, x, x); }
        }
        assert IsFirst(keys, ids, x);
      }
    }
  }

  /** There is only one first element. */
  lemma FirstUnique(keys: map<int, seq<int>>, ids: set<int>)
    requires ids <= keys.Keys
    ensures forall a, b :: IsFirst(keys, ids, a) && IsFirst(keys, ids, b) ==> a == b
  {
    forall a, b | IsFirst(keys, ids, a) && IsFirst(keys, ids, b) ensures a == b {
      BeforeAntisym(keys, a, b);
    }
  }

  /**
   * The ids of `ids` in listing order: each id once, keys non-decreasing,
   * equal keys by ascending id.
   */
  function SortIds(keys: map<int, seq<int>>, ids: set<int>): (r: seq<int>)
    requires ids <= keys.Keys
    ensures |r| == |ids|
    ensures forall i :: 0 <= i < |r| ==> r[i] in ids
    ensures forall x :: x in ids ==> x in r
    ensures forall i, j :: 0 <= i < j < |r| ==> Before(keys, r[i], r[j]) && r[i] != r[j]
    decreases |ids|
  {
    if ids == {} then []
    else
      FirstExists(keys, ids);
      FirstUnique(keys, ids);
      var m :| IsFirst(keys, ids, m);
      [m] + SortIds(keys, ids - {m})
  }

  /** In a listing, keys never decrease. */
  lemma SortedKeys(keys: map<int, seq<int>>, ids: set<int>, i: int, j: int)
    requires ids <= keys.Keys
    requires 0 <= i <= j < |SortIds(keys, ids)|
    ensures LexLe(keys[SortIds(keys, ids)[i]], keys[SortIds(keys, ids)[j]])
  {
    var r := SortIds(keys, ids);
    LexLeRefl(keys[r[i]]);
  }
}

=== FILE: serializers.dfy ===
/**
 * The REST API's serialised shapes: a subject with its course count and
 * three most popular courses, and a course with its modules and their
 * rendered contents.
 */
module CourseSerializers {
  import opened Wrappers
  import opened Ordering
  import opened CourseModels

  function Min(a: int, b: int): int { if a <= b then a else b }

  // ---- SubjectSerializer ----

  /** Looking up a missing attribute on a model instance. */
  datatype AttributeError = AttributeError(name: string)

  /**
   * `subject.<name>` for a reverse relation from Course: only the declared
   * related name `course` exists on Subject.
   */
  function RelatedCourses(db: Db, subject: int, name: string): (r: Result<set<int>, AttributeError>)
    ensures r.Ok? <==> name == "course"
    ensures r.Ok? ==> r.value == CourseIdsOf(db, subject)
  {
    if name == "course" then Ok(CourseIdsOf(db, subject)) else Err(AttributeError(name))
  }

  /** `obj.<name>.count()` */
  function CountRelated(db: Db, subject: int, name: string): (r: Result<nat, AttributeError>)
    ensures r.Ok? <==> name == "course"
  {
    match RelatedCourses(db, subject, name)
    case Ok(ids) => Ok(|ids|)
    case Err(e) => Err(e)
  }

  /** `get_total_courses` as written: `obj.courses.count()`. */
  function TotalCoursesAsWritten(db: Db, subject: int): Result<nat, AttributeError>
  {
    CountRelated(db, subject, "courses")
  }

  /** As written, both subject fields fail on the undeclared name `courses`, for every subject. */
  lemma SubjectAsWrittenFails(db: Db, subject: int)
    ensures TotalCoursesAsWritten(db, subject) == Err(AttributeError("courses"))
    ensures PopularCoursesAsWritten(db, subject) == Err(AttributeError("courses"))
  {
    assert "courses" != "course";
  }

  /** `get_total_courses` through the declared relation: the subject's course count. */
  function TotalCourses(db: Db, subject: int): (n: nat)
    ensures n == |CourseIdsOf(db, subject)|
  {
    CountRelated(db, subject, "course").value
  }

  /** One entry of `popular_courses`: exactly a title and a student count. */
  datatype PopularCourse = PopularCourse(title: string, totalStudents: nat)

  function StudentCount(c: Course): nat { |c.students| }

  /** The sort key of `order_by('-total_students')`. */
  function StudentKeys(db: Db): map<int, seq<int>>
  {
    map c | c in db.courses :: [-(StudentCount(db.courses[c]) as int)]
  }

  /**
   * `annotate(total_students=Count('students')).order_by('-total_students')[:3]`
   * over the subject's courses: at most three distinct courses of the
   * subject, most students first.
   */
  function PopularIds(db: Db, subject: int): (r: seq<int>)
    ensures |r| == Min(3, TotalCourses(db, subject))
    ensures forall i :: 0 <= i < |r| ==> r[i] in CourseIdsOf(db, subject)
    ensures forall i, j :: 0 <= i < j < |r| ==>
      r[i] != r[j] && StudentCount(db.courses[r[i]]) >= StudentCount(db.courses[r[j]])
  {
    var all := SortIds(StudentKeys(db), CourseIdsOf(db, subject));
    SingletonKeys();
    all[..Min(3, |all|)]
  }

  /** No course of the subject left out of the top three has more students than one kept. */
  lemma PopularIdsAreTop(db: Db, subject: int, c: int, i: int)
    requires c in CourseIdsOf(db, subject) && c !in PopularIds(db, subject)
    requires 0 <= i < |PopularIds(db, subject)|
    ensures StudentCount(db.courses[c]) <= StudentCount(db.courses[PopularIds(db, subject)[i]])
  {
    var keys := StudentKeys(db);
    var all := SortIds(keys, CourseIdsOf(db, subject));
    var r := PopularIds(db, subject);
    assert r == all[..|r|];
    var k :| 0 <= k < |all| && all[k] == c;
    assert k >= |r|;
    SortedKeys(keys, CourseIdsOf(db, subject), i, k);
    SingletonKeys();
  }

  function PopularEntries(db: Db, ids: seq<int>): (r: seq<PopularCourse>)
    requires forall i :: 0 <= i < |ids| ==> ids[i] in db.courses
    ensures |r| == |ids|
    ensures forall i :: 0 <= i < |r| ==>
      r[i] == PopularCourse(db.courses[ids[i]].title, StudentCount(db.courses[ids[i]]))
  {
    if ids == [] then []
    else [PopularCourse(db.courses[ids[0]].title, StudentCount(db.courses[ids[0]]))]
         + PopularEntries(db, ids[1..])
  }

  /** `get_popular_courses` through the declared relation. */
  function PopularCourses(db: Db, subject: int): (r: seq<PopularCourse>)
    ensures |r| <= 3 && |r| == Min(3, TotalCourses(db, subject))
    ensures forall i, j :: 0 <= i < j < |r| ==> r[i].totalStudents >= r[j].totalStudents
  {
    PopularEntries(db, PopularIds(db, subject))
  }

  /**
   * Each popular entry is a course of the subject, with its own title and
   * student count, and no course left out has more students than any entry.
   */
  lemma PopularAreTop(db: Db, subject: int)
    ensures var ids := PopularIds(db, subject);
      && (forall i :: 0 <= i < |ids| ==>
            && ids[i] in CourseIdsOf(db, subject)
            && PopularCourses(db, subject)[i] ==
                 PopularCourse(db.courses[ids[i]].title, |db.courses[ids[i]].students|))
      && (forall c, i :: c in CourseIdsOf(db, subject) && c !in ids && 0 <= i < |ids| ==>
            |db.courses[c].students| <= PopularCourses(db, subject)[i].totalStudents)
  {
    var ids := PopularIds(db, subject);
    forall c, i | c in CourseIdsOf(db, subject) && c !in ids && 0 <= i < |ids|
      ensures |db.courses[c].students| <= PopularCourses(db, subject)[i].totalStudents
    {
      PopularIdsAreTop(db, subject, c, i);
    }
  }

  /** `obj.<name>` followed by the popular-courses query. */
  function PopularRelated(db: Db, subject: int, name: string): (r: Result<seq<PopularCourse>, AttributeError>)
    ensures r.Ok? <==> name == "course"
  {
    match RelatedCourses(db, subject, name)
    case Ok(_) => Ok(PopularCourses(db, subject))
    case Err(e) => Err(e)
  }

  /** `get_popular_courses` as written: it too goes through `obj.courses`. */
  function PopularCoursesAsWritten(db: Db, subject: int): Result<seq<PopularCourse>, AttributeError>
  {
    PopularRelated(db, subject, "courses")
  }

  datatype SubjectOut = SubjectOut(id: int, title: string, totalCourses: nat, popularCourses: seq<PopularCourse>)

  /** `SubjectSerializer`: `id`, `title`, `total_courses`, `popular_courses`. */
  function SerializeSubject(db: Db, id: int): (r: SubjectOut)
    requires id in db.subjects
    ensures r.id == id && r.title == db.subjects[id].title
    ensures r.totalCourses == |CourseIdsOf(db, id)|
    ensures r.popularCourses == PopularCourses(db, id)
    ensures |r.popularCourses| == Min(3, r.totalCourses)
  {
    SubjectOut(id, db.subjects[id].title, TotalCourses(db, id), PopularCourses(db, id))
  }

  // ---- ContentSerializer, ModuleWithContentSerializer, CourseWithContentsSerializer ----

  /** `item` is None when the generic reference points at no row. */
  datatype ContentOut = ContentOut(order: int, item: Option<RenderCall>)

  datatype ModuleOut = ModuleOut(order: int, title: string, description: string, contents: seq<ContentOut>)

  datatype CourseOut = CourseOut(
    id: int, subject: int, title: string, slug: string, overview: string,
    created: int, owner: UserId, modules: seq<ModuleOut>)

  /** `ContentSerializer`: the order and `item.render()`, whatever the item's kind. */
  function SerializeContent(db: Db, id: int): (r: ContentOut)
    requires id in db.contents
    ensures r.order == db.contents[id].order
    ensures r.item.Some? <==> db.contents[id].item in db.items
    ensures r.item.Some? ==>
      r.item.value.template == TemplateName(db.contents[id].item.kind)
      && r.item.value.item == db.items[db.contents[id].item]
  {
    var c := db.contents[id];
    ContentOut(c.order, if c.item in db.items then Some(Render(c.item.kind, db.items[c.item])) else None)
  }

  function SerializeContents(db: Db, ids: seq<int>): (r: seq<ContentOut>)
    requires forall i :: 0 <= i < |ids| ==> ids[i] in db.contents
    ensures |r| == |ids|
    ensures forall i :: 0 <= i < |r| ==> r[i] == SerializeContent(db, ids[i])
  {
    if ids == [] then [] else [SerializeContent(db, ids[0])] + SerializeContents(db, ids[1..])
  }

  /** `ModuleWithContentSerializer`: the module's fields and its contents by order. */
  function SerializeModule(db: Db, id: int): (r: ModuleOut)
    requires id in db.modules
    ensures r.order == db.modules[id].order && r.title == db.modules[id].title
    ensures r.description == db.modules[id].description
    ensures |r.contents| == |ContentIdsOf(db, id)|
    ensures forall i :: 0 <= i < |r.contents| ==>
      r.contents[i] == SerializeContent(db, ContentsInOrder(db, id)[i])
    ensures forall i, j :: 0 <= i < j < |r.contents| ==> r.contents[i].order <= r.contents[j].order
  {
    var m := db.modules[id];
    ModuleOut(m.order, m.title, m.description, SerializeContents(db, ContentsInOrder(db, id)))
  }

  function SerializeModules(db: Db, ids: seq<int>): (r: seq<ModuleOut>)
    requires forall i :: 0 <= i < |ids| ==> ids[i] in db.modules
    ensures |r| == |ids|
    ensures forall i :: 0 <= i < |r| ==> r[i] == SerializeModule(db, ids[i])
  {
    if ids == [] then [] else [SerializeModule(db, ids[0])] + SerializeModules(db, ids[1..])
  }

  /** `CourseWithContentsSerializer`: the course's fields and its modules by order. */
  function SerializeCourse(db: Db, id: int): (r: CourseOut)
    requires id in db.courses
    ensures r.id == id && r.title == db.courses[id].title && r.slug == db.courses[id].slug
    ensures r.subject == db.courses[id].subject && r.owner == db.courses[id].owner
    ensures r.overview == db.courses[id].overview && r.created == db.courses[id].created
    ensures |r.modules| == |ModuleIdsOf(db, id)|
    ensures forall i :: 0 <= i < |r.modules| ==>
      r.modules[i] == SerializeModule(db, ModulesInOrder(db, id)[i])
    ensures forall i, j :: 0 <= i < j < |r.modules| ==> r.modules[i].order <= r.modules[j].order
    ensures forall i :: 0 <= i < |r.modules| ==>
      forall j, k :: 0 <= j < k < |r.modules[i].contents| ==>
        r.modules[i].contents[j].order <= r.modules[i].contents[k].order
  {
    var c := db.courses[id];
    CourseOut(id, c.subject, c.title, c.slug, c.overview, c.created, c.owner,
              SerializeModules(db, ModulesInOrder(db, id)))
  }
}

=== FILE: wrappers.dfy ===
/** Option and Result values for the error paths of the modelled views and forms. */
module Wrappers {

  datatype Option<+T> = None | Some(value: T)

  datatype Result<+R, +E> = Ok(value: R) | Err(error: E)
}
